=== FILE: README.md ===
# Stock risk checker — a Dafny model of the rule engine

The stock risk checker ("股票排雷检测器") fetches three financial statements for
a stock code:

- the income statement (利润表);
- the balance sheet (资产负债表);
- the cash-flow statement (现金流量表).

It runs three screening rules and records each rule's display label in a
report dictionary under a fixed name. It then adds a final conclusion (最终结论).
The conclusion comes from the severity markers inside the recorded labels:

- any "❌" means high risk;
- otherwise any "⚠️" means medium risk;
- otherwise the stock is low risk.

This project models that core:

- `statement.dfy` (module `Statement`) models a statement as an ordered list of line items. Each item has a label (the `报表项目` column) and data cells. The module also models the two ways a rule reads a statement:
  - the first data cell of the first row with a label (`FirstValue`);
  - the numeric matrix of every row with a label (`Select`, `NumericRows`).
- `changes.dfy` (module `Changes`) models `pct_change(axis=1)` as pandas computes it (`cur / prev - 1`).
  - It keeps the IEEE results of a zero previous value (±inf, NaN), taking that zero as +0.0.
  - It keeps each row's leading NaN.
  - It also models the NaN-skipping `min()`.
- `labels.dfy` (module `Labels`) holds the labels, the markers, and Python's substring test `in` (`Contains`).
  - It also gives the severity tier a label signals (`TierOf`).
- `rules.dfy` (module `Rules`) holds the three rules:
  - stable growth: the smallest period-on-period change of revenue and of net profit, each computed as `cur / prev - 1`, must be above -0.2;
  - liquidity: current assets against current liabilities;
  - debt risk: A = cash + trading financial assets, against B = short-term debt due within a year, and against B + C, where C = long-term borrowings + bonds payable.
  - In every rule, a cell holding text that `float()` rejects gives the shared insufficient-data label "⚠️ 数据不足". A NaN cell does not, and in rule 1 neither does a None cell; see "Left out".
  - In rules 2 and 3, so does a missing row or a missing first data cell.
  - In rule 1, a missing row or a single data column gives "❌ 波动过大" instead, as described below.
- `report.dfy` (module `Report`) models `check_risks`:
  - the report is an insertion-ordered dictionary;
  - it holds either the three rule entries or the fetch-error entry, then the conclusion.
- `examples.dfy` (module `Scenarios`) works concrete statements through the rules.
- `wrappers.dfy` (module `Wrappers`) holds `Option` and `Result`.

Where the program's behaviour and its evident intent differ, the model follows the program:

- Rule 1 reports "❌ 波动过大" (volatile), not insufficient data, in two cases. Both give pandas no adjacent pair of periods, so the minimum is NaN, and `NaN > -0.2` is false.
  - The first case is a revenue or net-profit row that is missing.
  - The second is a row that has a single data column.
- A stock whose statements cannot be fetched gets the error entry "数据抓取失败: …". That text carries no marker. Unless the provider's error message happens to contain one, the conclusion is therefore "低风险，可进一步研究" (low risk).
- Rule 3 calls a company safe when A ≥ B and A ≥ B + C. The second comparison alone decides only when C ≥ 0. With negative long-term figures, A can reach B + C and still be below B, and the rule reports a funding strain.

## Model

| member | source | states |
|---|---|---|
| Statement.FirstIndexSpec | app.py:32 | the row selected by label and `.iloc[0]` is the first row carrying the label; there is none exactly when no row carries it |
| Statement.FirstValueSpec | app.py:32 | `float(... .iloc[0, 1])` yields the first data cell of the first matching row; it fails exactly when there is no such row, the row has no data cell, or the cell is not numeric |
| Statement.FirstValueIsFigure | app.py:32-33 | the value read for a label is exactly its figure, and reading fails exactly when the label has no figure |
| Statement.FigureRead | app.py:42-51 | a figure the statement holds is the value every rule reads for that label |
| Statement.Select | app.py:19-20 | the selection by label holds exactly the rows with that label, no more rows than the table |
| Statement.Numbers | app.py:19-20 | `.astype(float)` on a row succeeds exactly when every cell is numeric, and keeps every value in place |
| Statement.NumericRows | app.py:19-20 | the numeric matrix exists exactly when every cell of every selected row is numeric, one row of numbers per selected row |
| Statement.SelectNumeric | app.py:19-20 | converting the selection succeeds exactly when every row labelled with the item is numeric throughout |
| Changes.PctChange | app.py:21 | for a non-zero previous value the change is `(cur - prev) / prev`; for a zero one (taken as +0.0) it is +inf, -inf or NaN as the current value is positive, negative or zero |
| Changes.PairChangesPresent | app.py:21 | every change between adjacent periods of a row appears in the `pct_change` result |
| Changes.DefinedChangesArePairs | app.py:21 | every non-NaN entry of the `pct_change` result is the change between two adjacent periods of some row |
| Changes.Min | app.py:21 | the NaN-skipping minimum is NaN exactly when every change is NaN; otherwise it is one of the changes and no defined change is smaller |
| Changes.MinAbove | app.py:21 | the minimum clears -20% exactly when some change is defined and every defined change clears it |
| Labels.ContainsAt | app.py:85-87 | the substring test holds exactly when the pattern occurs at some offset |
| Labels.ContainsOccurs | app.py:85-87 | a pattern the substring test finds occurs at some offset |
| Labels.OccursContains | app.py:85-87 | a pattern occurring at some offset is found by the substring test |
| Labels.NotContainsWithoutHead | app.py:85-87 | a pattern cannot occur in a string lacking its first code point |
| Labels.ContainsAfterPrefix | app.py:82 | a prefix holding no first code point of the pattern does not change whether the pattern occurs |
| Labels.TierOfMarked | app.py:85-90 | a label whose leading marker is the only marker code point signals that marker's tier |
| Labels.NoDataIsWarning | app.py:26 | the insufficient-data label signals a warning, not an alarm |
| Rules.StableGrowth | app.py:16-26 | rule 1 returns one of its three labels |
| Rules.PairChangeBridge | app.py:19-21 | the adjacent-period changes of the numeric selection are exactly those of the table's rows with the label |
| Rules.PairToPeriod | app.py:19-21 | a change between adjacent periods of the selection is one of a row of the table with the label |
| Rules.PeriodToPair | app.py:19-21 | a change between adjacent periods of a row with the label is one of the selection |
| Rules.ItemThreshold | app.py:21 | for one line item, `pct_change(axis=1).min().min() > -0.2` holds exactly when the item grows steadily |
| Rules.ThresholdSteady | app.py:21 | passing the threshold implies a defined change exists and every defined change is above -20% |
| Rules.SteadyThreshold | app.py:21 | a defined change existing, and every defined change being above -20%, implies passing the threshold |
| Rules.StableGrowthSpec | app.py:16-26 | insufficient data exactly when a revenue or net-profit cell is not numeric; stable growth exactly when both items are numeric and grow steadily; volatile exactly when both are numeric and one does not |
| Rules.SteadyNonZero | app.py:21 | with non-zero earlier periods, steady growth means at least one pair of periods and every pair's growth rate strictly above -20% |
| Rules.StableGrowthRates | app.py:16-24 | with non-zero earlier periods, stable growth exactly when both items are numeric, have a pair of periods, and every growth rate is strictly above -20% |
| Rules.ExactFifthDropIsVolatile | app.py:21-24 | in real arithmetic, a fall of exactly 20% in either item gives the volatile label, because the comparison is strict; the program computes in doubles and does the opposite (see "Left out") |
| Rules.NoPairIsVolatile | app.py:19-24 | with numeric data but no pair of adjacent periods for revenue or for net profit (one data column, or no such row), rule 1 reports volatility, not insufficient data |
| Rules.Liquidity | app.py:29-36 | rule 2 returns one of its three labels |
| Rules.LiquiditySpec | app.py:32-34 | the liquidity-risk label exactly when current assets are strictly below current liabilities; normal exactly when they are equal or above |
| Rules.LiquidityNoData | app.py:31-36 | rule 2 reports insufficient data exactly when either figure is missing |
| Rules.DebtRisk | app.py:39-61 | rule 3 returns one of its four labels |
| Rules.SumRead | app.py:44 | two readable figures give their sum |
| Rules.DebtRiskOfFunds | app.py:54-59 | funding strain exactly when A < B; repayment pressure exactly when B ≤ A < B + C; safe exactly when A ≥ B and A ≥ B + C |
| Rules.DebtRiskOfValues | app.py:42-59 | the three tiers of rule 3 in terms of the six values read |
| Rules.DebtRiskSpec | app.py:42-59 | the three tiers of rule 3 in terms of the six figures of the statement, and, when C ≥ 0, safe exactly when A ≥ B + C |
| Rules.DebtLabelsDistinct | app.py:55-61 | the four answers of rule 3 are different texts |
| Rules.DebtFiguresRead | app.py:42-51 | the six figures are the six values rule 3 reads |
| Rules.DebtRiskNoData | app.py:41-61 | rule 3 reports insufficient data exactly when one of its six figures is missing |
| Rules.DebtRiskNoValue | app.py:41-61 | rule 3 reports insufficient data exactly when one of its six reads fails |
| Rules.MissingIsUnread | app.py:42 | a figure is missing exactly when reading it fails |
| Rules.GrowthLabelTiers | app.py:22-24 | the stable label signals nothing and the volatile label an alarm |
| Rules.LiquidityLabelTiers | app.py:34 | the normal label signals nothing and the liquidity-risk label an alarm |
| Rules.DebtLabelTiers | app.py:55-59 | the safe label signals nothing, repayment pressure a warning, and funding strain an alarm |
| Rules.PressureTier | app.py:57 | the repayment-pressure label signals a warning |
| Report.KeysConcat | app.py:73-82 | the keys of two dictionaries laid end to end are the first's keys followed by the second's |
| Report.Put | app.py:73-75 | assigning a key no entry carries appends it at the end |
| Report.PutGet | app.py:73-75 | after assignment the key maps to the new value and every other key maps to what it did before |
| Report.PutKeys | app.py:73-75 | overwriting keeps the key sequence; a new key goes last |
| Report.PutDistinct | app.py:73-75 | assignment keeps the keys distinct |
| Report.Classify | app.py:85-90 | the conclusion is one of the three conclusion texts |
| Report.WorstTierMembers | app.py:85-90 | the most severe tier is an alarm exactly when some value alarms, and clear exactly when every value is clear |
| Report.ClassifyIsWorstTier | app.py:85-90 | the "❌"-then-"⚠️" scan yields the conclusion of the most severe tier present, so one alarm outweighs any number of warnings |
| Report.ClassifyBySet | app.py:85-90 | values with the same members give the same conclusion |
| Report.ClassifyPermutation | app.py:85-90 | permuting the values keeps the conclusion |
| Report.KeysDistinct | app.py:73-86 | the five report keys are different texts |
| Report.PutThree | app.py:73-75 | three assignments of different keys to an empty dictionary keep assignment order |
| Report.RuleFindings | app.py:73-75 | after a successful fetch the report holds the three rule labels under their keys, in rule order |
| Report.ErrorFindings | app.py:81-82 | after a failed fetch the report holds the prefixed error text alone |
| Report.Findings | app.py:70-82 | after a successful fetch the report holds the three rule labels under 业绩趋势, 流动性 and 偿债能力, in that order; after a failed fetch it holds only the 错误 entry with the prefixed exception text, and no rule runs |
| Report.Conclude | app.py:84-90 | the conclusion is appended last and computed from the entries before it, which stay as they were |
| Report.RuleReportKeys | app.py:73-90 | a completed report has keys trend, liquidity, solvency, conclusion, all different |
| Report.ErrorReportKeys | app.py:81-90 | a failed report has keys error, conclusion, all different |
| Report.FindingsKeys | app.py:73-82 | the findings never hold the conclusion key |
| Report.CheckRisks | app.py:68-92 | the report holds one entry more than the findings, and the last entry is the conclusion |
| Report.CheckRisksShape | app.py:68-92 | the report has distinct keys; its entries before the last are the findings; the last is the conclusion classified from them; its keys are trend, liquidity, solvency, conclusion after a successful fetch and error, conclusion after a failed one |
| Report.GrowthTier | app.py:22-26 | a rule 1 label alarms exactly when it is the volatile label and is clear exactly when it is the stable label |
| Report.LiquidityTier | app.py:34-36 | a rule 2 label alarms exactly when it is the liquidity-risk label and is clear exactly when it is the normal label |
| Report.DebtTier | app.py:55-61 | a rule 3 label alarms exactly when it is the strain label and is clear exactly when it is the safe label |
| Report.ConclusionOfLabels | app.py:85-90 | for one label per rule, the conclusion is high risk exactly when some label is a failure, low risk exactly when all three pass, medium risk otherwise |
| Report.RuleValues | app.py:73-75 | the values of a completed report's findings are the three labels in rule order |
| Report.ConclusionEntry | app.py:84-90 | looking up the conclusion gives the classification of the findings |
| Report.ConclusionOfRules | app.py:73-90 | after a successful fetch the conclusion is high risk exactly when some rule fails; it is medium risk exactly when none fails and not all pass; it is low risk exactly when all three pass |
| Report.ConclusionOfTiers | app.py:85-90 | over three tiers, high exactly when one alarms, medium exactly when none alarms and one is not clear, low exactly when all are clear |
| Report.RuleConclusion | app.py:73-90 | after a successful fetch the conclusion is that of the most severe tier among the three rule labels |
| Report.ClassifyTriple | app.py:85-90 | the conclusion of three values is that of the most severe of their tiers |
| Report.ConclusionsDistinct | app.py:86-90 | the three conclusions are different texts |
| Report.PrefixTier | app.py:82 | the fixed error prefix carries no marker, so the error entry signals what the error text signals |
| Report.FailureReport | app.py:81-90 | a failed fetch yields exactly the error entry and the conclusion drawn from it |
| Report.FetchFailureConclusion | app.py:81-90 | a failed fetch is concluded by the tier of the error text alone |
| Report.UnmarkedFetchFailureIsLowRisk | app.py:81-90 | an error text without marker code points makes an unfetchable stock low risk |
| Scenarios.TwoPeriodGrowth | app.py:16-24 | over two periods with non-zero openings, stable growth exactly when both items change by more than -20%, volatile otherwise |
| Scenarios.ModestDeclineIsStable | app.py:21-22 | revenue 100→85 and profit 50→45 give stable growth |
| Scenarios.SharpDeclineIsVolatile | app.py:21-24 | revenue 100→70 gives the volatile label |
| Scenarios.LiquidityScenarios | app.py:32-34 | 80 against 100 is a risk; 120 against 100 and 100 against 100 are normal |
| Scenarios.MissingLiquidityRows | app.py:35-36 | a balance sheet without the liquidity items lacks data |
| Scenarios.TimeoutScenario | app.py:81-90 | the error text "timeout" yields the error entry and the low-risk conclusion |
| Scenarios.DebtsFigures | app.py:42-51 | each figure of the sample balance sheet is the one placed in its row |
| Scenarios.DebtScenarios | app.py:54-59 | A=10, B=20 is strain; A=30, B=20, C=20 is pressure; A=60, B=20, C=20 is safe |
| Scenarios.NegativeLongTermDebt | app.py:54-59 | A=15, B=20, C=-10 is strain, although A ≥ B + C |

## Left out

- `get_financials` (app.py:7-12) calls the external data provider over the network. It is not modelled: `CheckRisks` takes its outcome as a parameter, either the three statements or the text of the exception raised.
- The web page (app.py:95 onward) is user interface and is not modelled. It reads the stock code, shows a waiting message, and renders the report.
- Rules 4 to 12 exist only as a comment in the program, so there is nothing to model.
- The cash-flow statement is carried in `Statements`, but no implemented rule reads it.
- Floating point is not modelled. Figures and growth rates are mathematical reals. A `NotNumeric` cell stands for text that `float()` rejects. NaN cells, None (null) cells and infinite cells are not modelled, and neither are signed zeros. Only two IEEE outcomes are kept: dividing by a zero previous period, and the leading NaN of each row's changes. A zero previous period is taken as +0.0. In the program, a previous value of -0.0 followed by a positive one gives -inf, where the model gives +inf.
- A None cell of an object column is where the program's two conversions disagree:
  - Rules 2 and 3 call `float()`, which raises on None, so those rules give "⚠️ 数据不足". This is exactly the `NotNumeric` behaviour.
  - Rule 1 calls `.astype(float)`, which turns None into NaN without raising. From there it behaves as a NaN cell does.
- In the program, `float()` and `.astype(float)` accept a NaN cell, so a NaN figure never raises. Comparisons with NaN are false, so:
  - rule 2 returns "✅ 正常";
  - rule 3 returns "✅ 安全";
  - rule 1 returns "✅ 稳定增长" or "❌ 波动过大", depending on how the installed pandas treats NaN in `pct_change`.
  The lines below name the members whose statements do not cover this.
- `Statement.FirstValueSpec`: a NaN first cell is read as a number by the program; the model has no NaN cell, so it neither fails nor yields a value for it.
- `Statement.Numbers`: `.astype(float)` keeps NaN cells and turns None cells into NaN; the model has neither cell and only states the outcome for numbers and rejected text.
- `Statement.NumericRows`: the program's matrix exists when selected cells are NaN or None; the model states existence only for numbers and rejected text.
- `Statement.SelectNumeric`: converting a selection holding NaN or None cells succeeds in the program; the model's "numeric throughout" does not cover either.
- `Rules.StableGrowthSpec`: a NaN or None revenue or net-profit cell gives "✅ 稳定增长" or "❌ 波动过大" in the program, never "⚠️ 数据不足"; the model does not cover this input.
- `Rules.LiquidityNoData`: a NaN current-assets or current-liabilities figure gives "✅ 正常" in the program, not "⚠️ 数据不足"; the model does not cover this input.
- `Rules.DebtRiskNoData`: a NaN among the six figures makes A, B or C NaN, so both comparisons are false and the program gives "✅ 安全", not "⚠️ 数据不足"; the model does not cover this input.
- The statement's shape is not modelled. A statement that lacks the `报表项目` column, or whose rows have different lengths, is out of scope. Each row carries its own cells, so a missing-column `KeyError` is not represented.
- Exception kinds are not modelled. Every exception inside a rule yields the insufficient-data label, and a fetch exception is represented by its message text only.
- `Rules.ExactFifthDropIsVolatile`: this holds only in real arithmetic. The program computes `cur / prev - 1` in IEEE doubles. For an exact 20% fall, `cur / prev` rounds to 0.8000000000000000444, and subtracting 1 gives -0.19999999999999996, which is above -0.2. So the program reports stable growth, for example for revenue 100 to 80 with net profit 50 to 45, where this lemma says volatile.
- `Scenarios.TwoPeriodGrowth`: its rates are real numbers, so at the -20% boundary it can disagree with the program's rounded doubles, as in the line above. Only rates within rounding error of -0.2 can compare differently.
- `Rules.StableGrowthRates`: the same caveat at the -20% boundary, because the model compares exact rates while the program compares rounded doubles.
- `Changes.Min`: it models `.min().min()` as one NaN-skipping minimum over all changes. It does not model the minimum of per-column minima. Both give the same value, but that equality is not proved here.

=== FILE: changes.dfy ===
/** The two DataFrame reductions the growth rule relies on:
    `pct_change(axis=1)`, the relative change from each reporting period
    to the next, and the NaN-skipping `min()`. Values are reals; only the
    IEEE outcomes of dividing by a zero previous value are kept. */
module Changes {

  /** A relative change: a real, an infinity from dividing a non-zero value
      by zero, or NaN (no previous period, or 0 / 0). */
  datatype Change = Finite(value: real) | PosInf | NegInf | NaN

  /** The order of non-NaN changes: -inf < every real < +inf. */
  predicate AtMost(a: Change, b: Change)
    requires !a.NaN? && !b.NaN?
  {
    match (a, b)
    case (NegInf, _) => true
    case (_, PosInf) => true
    case (Finite(x), Finite(y)) => x <= y
    case _ => false
  }

  /** Dividing by a non-zero `prev` and subtracting one is dividing the
      difference by `prev`. */
  lemma RatioMinusOne(prev: real, cur: real)
    requires prev != 0.0
    ensures cur / prev - 1.0 == (cur - prev) / prev
  {
    assert prev / prev == 1.0;
    assert (cur - prev) / prev == cur / prev - prev / prev;
  }

  /** The change from `prev` to `cur` as pandas computes it, `cur / prev - 1`;
      for a non-zero `prev` this is the textbook `(cur - prev) / prev`. A
      zero `prev` is taken as +0.0: reals carry no signed zero. */
  function PctChange(prev: real, cur: real): (c: Change)
    ensures prev != 0.0 ==> c == Finite((cur - prev) / prev)
    ensures prev == 0.0 ==> (c.PosInf? <==> cur > 0.0) && (c.NegInf? <==> cur < 0.0) && (c.NaN? <==> cur == 0.0)
  {
    if prev != 0.0 then
      RatioMinusOne(prev, cur);
      Finite(cur / prev - 1.0)
    else if cur > 0.0 then PosInf
    else if cur < 0.0 then NegInf
    else NaN
  }

  /** `pct_change(axis=1)` of one row: NaN in the first period (there is
      nothing to compare with), then one change per adjacent pair. */
  function RowChanges(xs: seq<real>): (r: seq<Change>)
  {
    seq(|xs|, k requires 0 <= k < |xs| => if k == 0 then NaN else PctChange(xs[k - 1], xs[k]))
  }

  /** `pct_change(axis=1)` of a matrix, all rows' cells laid end to end. */
  function MatrixChanges(m: seq<seq<real>>): (cs: seq<Change>)
  {
    if |m| == 0 then [] else RowChanges(m[0]) + MatrixChanges(m[1..])
  }

  /** The change between periods `j - 1` and `j` of row `k`. */
  ghost predicate IsPairChange(m: seq<seq<real>>, c: Change, k: int, j: int)
  {
    0 <= k < |m| && 1 <= j < |m[k]| && c == PctChange(m[k][j - 1], m[k][j])
  }

  /** Every change between adjacent periods of a row appears in `pct_change`. */
  lemma {:induction false} PairChangesPresent(m: seq<seq<real>>)
    ensures forall k, j :: 0 <= k < |m| && 1 <= j < |m[k]| ==> PctChange(m[k][j - 1], m[k][j]) in MatrixChanges(m)
  {
    if |m| > 0 {
      PairChangesPresent(m[1..]);
      var head := RowChanges(m[0]);
      var rest := MatrixChanges(m[1..]);
      assert MatrixChanges(m) == head + rest;
      forall k, j | 0 <= k < |m| && 1 <= j < |m[k]|
        ensures PctChange(m[k][j - 1], m[k][j]) in head + rest
      {
        if k == 0 {
          assert head[j] == PctChange(m[0][j - 1], m[0][j]);
        } else {
          assert m[1..][k - 1] == m[k];
          assert PctChange(m[k][j - 1], m[k][j]) in rest;
        }
      }
    }
  }

  /** Every entry of `pct_change` other than a row's leading NaN is the
      change between two adjacent periods of some row. */
  lemma {:induction false} DefinedChangesArePairs(m: seq<seq<real>>)
    ensures forall c :: c in MatrixChanges(m) ==> c.NaN? || exists k, j :: IsPairChange(m, c, k, j)
  {
    if |m| > 0 {
      DefinedChangesArePairs(m[1..]);
      var head := RowChanges(m[0]);
      var rest := MatrixChanges(m[1..]);
      assert MatrixChanges(m) == head + rest;
      forall c: Change | c in head + rest && !c.NaN?
        ensures exists k, j :: IsPairChange(m, c, k, j)
      {
        if c in head {
          var j :| 0 <= j < |head| && head[j] == c;
          assert IsPairChange(m, c, 0, j);
        } else {
          var k, j :| IsPairChange(m[1..], c, k, j);
          assert IsPairChange(m, c, k + 1, j);
        }
      }
    }
  }

  /** `min()` with pandas' default `skipna=True`: the least non-NaN change,
      NaN when there is none. Taking the minimum of column minima, as
      `.min().min()` does, gives the same value. */
  function Min(cs: seq<Change>): (m: Change)
    ensures m.NaN? <==> forall k :: 0 <= k < |cs| ==> cs[k].NaN?
    ensures !m.NaN? ==> m in cs && forall k :: 0 <= k < |cs| && !cs[k].NaN? ==> AtMost(m, cs[k])
  {
    if |cs| == 0 then NaN
    else
      var rest := Min(cs[1..]);
      assert forall k :: 1 <= k < |cs| ==> cs[k] == cs[1..][k - 1];
      if cs[0].NaN? then rest
      else if rest.NaN? || AtMost(cs[0], rest) then cs[0]
      else rest
  }

  /** `c > -0.2` as Python evaluates it: false for NaN and for -inf. */
  predicate Above(c: Change)
  {
    c.PosInf? || (c.Finite? && c.value > -0.2)
  }

  /** The minimum clears the -20% threshold exactly when some change is
      defined and every defined change clears it. */
  lemma {:induction false} MinAbove(cs: seq<Change>)
    ensures Above(Min(cs)) <==>
      (exists c :: c in cs && !c.NaN?) && forall c :: c in cs && !c.NaN? ==> Above(c)
  {
    var m := Min(cs);
    if Above(m) {
      forall c | c in cs && !c.NaN?
        ensures Above(c)
      {
        var k :| 0 <= k < |cs| && cs[k] == c;
        assert AtMost(m, cs[k]);
      }
    }
  }
}

=== FILE: examples.dfy ===
/** Worked scenarios: small statements and the labels the rules give them. */
module Scenarios {
  import opened Wrappers
  import opened Statement
  import opened Changes
  import opened Labels
  import opened Rules
  import opened Report

  /** An income statement with two periods of revenue and net profit. */
  function Income(r0: real, r1: real, p0: real, p1: real): (t: Table)
  {
    [Row(Revenue, [Num(r0), Num(r1)]), Row(NetProfit, [Num(p0), Num(p1)])]
  }

  /** Over two periods with non-zero opening figures, rule 1 reports
      stable growth exactly when neither revenue nor net profit falls by
      20% or more, and volatility otherwise. */
  lemma TwoPeriodGrowth(r0: real, r1: real, p0: real, p1: real)
    requires r0 != 0.0 && p0 != 0.0
    ensures StableGrowth(Income(r0, r1, p0, p1)) == StableLabel <==>
      (r1 - r0) / r0 > -0.2 && (p1 - p0) / p0 > -0.2
    ensures StableGrowth(Income(r0, r1, p0, p1)) == VolatileLabel <==>
      !((r1 - r0) / r0 > -0.2 && (p1 - p0) / p0 > -0.2)
  {
    var t := Income(r0, r1, p0, p1);
    assert Revenue != NetProfit by { assert |Revenue| != |NetProfit|; }
    assert PeriodChange(t, Revenue, 0, 1, Finite((r1 - r0) / r0));
    assert PeriodChange(t, NetProfit, 1, 1, Finite((p1 - p0) / p0));
    forall i, k, c | PeriodChange(t, Revenue, i, k, c)
      ensures c == Finite((r1 - r0) / r0)
    {
      assert i == 0 && k == 1;
    }
    forall i, k, c | PeriodChange(t, NetProfit, i, k, c)
      ensures c == Finite((p1 - p0) / p0)
    {
      assert i == 1 && k == 1;
    }
    StableGrowthSpec(t);
  }

  /** Revenue 100 -> 85 and net profit 50 -> 45 fall by 15% and 10%:
      stable growth. */
  lemma ModestDeclineIsStable(t: Table)
    requires t == Income(100.0, 85.0, 50.0, 45.0)
    ensures StableGrowth(t) == StableLabel
  {
    assert (85.0 - 100.0) / 100.0 == -0.15 && (45.0 - 50.0) / 50.0 == -0.1;
    TwoPeriodGrowth(100.0, 85.0, 50.0, 45.0);
  }

  /** Revenue 100 -> 70 falls by 30%: volatile. */
  lemma SharpDeclineIsVolatile(t: Table)
    requires t == Income(100.0, 70.0, 50.0, 45.0)
    ensures StableGrowth(t) == VolatileLabel
  {
    assert (70.0 - 100.0) / 100.0 == -0.3;
    TwoPeriodGrowth(100.0, 70.0, 50.0, 45.0);
  }

  /** A balance sheet whose first data column holds the given current
      assets and current liabilities. */
  function Balance(ca: real, cl: real): (t: Table)
  {
    [Row(CurrentAssets, [Num(ca)]), Row(CurrentLiabilities, [Num(cl)])]
  }

  /** Current assets 80 against liabilities 100 is a liquidity risk; 120
      against 100 is normal, and so is equality. */
  lemma LiquidityScenarios()
    ensures Liquidity(Balance(80.0, 100.0)) == LiquidityRiskLabel
    ensures Liquidity(Balance(120.0, 100.0)) == NormalLabel
    ensures Liquidity(Balance(100.0, 100.0)) == NormalLabel
  {
    assert CurrentAssets != CurrentLiabilities by { assert CurrentAssets[2] != CurrentLiabilities[2]; }
    forall ca: real, cl: real
      ensures Figure(Balance(ca, cl), CurrentAssets, ca) && Figure(Balance(ca, cl), CurrentLiabilities, cl)
    {
      assert IsFirst(Balance(ca, cl), CurrentAssets, 0);
      assert IsFirst(Balance(ca, cl), CurrentLiabilities, 1);
    }
    LiquiditySpec(Balance(80.0, 100.0), 80.0, 100.0);
    LiquiditySpec(Balance(120.0, 100.0), 120.0, 100.0);
    LiquiditySpec(Balance(100.0, 100.0), 100.0, 100.0);
  }

  /** A balance sheet without the liquidity line items lacks data for rule 2. */
  lemma MissingLiquidityRows()
    ensures Liquidity([Row(Revenue, [Num(1.0)])]) == NoData
  {
    assert Revenue != CurrentAssets by { assert |Revenue| != |CurrentAssets|; }
  }

  /** A failed fetch with an ordinary error text: one error entry, then the
      low-risk conclusion. */
  lemma TimeoutScenario()
    ensures CheckRisks(Failure("timeout")) ==
      [Entry(ErrorKey, FetchFailedPrefix + "timeout"), Entry(ConclusionKey, LowRisk)]
  {
    UnmarkedFetchFailureIsLowRisk("timeout");
    FetchFailureConclusion("timeout");
  }

  /** A balance sheet for rule 3 holding A as cash, B as short-term
      borrowings and C as long-term borrowings, the other three items zero. */
  function Debts(a: real, b: real, c: real): (t: Table)
  {
    [ Row(Cash, [Num(a)]), Row(TradingAssets, [Num(0.0)]),
      Row(ShortBorrowings, [Num(b)]), Row(CurrentPortion, [Num(0.0)]),
      Row(LongBorrowings, [Num(c)]), Row(BondsPayable, [Num(0.0)]) ]
  }

  /** Every figure of `Debts(a, b, c)` is the one placed in its row. */
  lemma DebtsFigures(a: real, b: real, c: real)
    ensures Figure(Debts(a, b, c), Cash, a) && Figure(Debts(a, b, c), TradingAssets, 0.0)
    ensures Figure(Debts(a, b, c), ShortBorrowings, b) && Figure(Debts(a, b, c), CurrentPortion, 0.0)
    ensures Figure(Debts(a, b, c), LongBorrowings, c) && Figure(Debts(a, b, c), BondsPayable, 0.0)
  {
    var t := Debts(a, b, c);
    var firsts := [Cash[0], TradingAssets[0], ShortBorrowings[0], CurrentPortion[0], LongBorrowings[0], BondsPayable[0]];
    assert forall i, j :: 0 <= i < j < 6 ==> firsts[i] != firsts[j];
    assert forall i :: 0 <= i < 6 ==> t[i].item[0] == firsts[i];
    assert IsFirst(t, Cash, 0);
    assert IsFirst(t, TradingAssets, 1);
    assert IsFirst(t, ShortBorrowings, 2);
    assert IsFirst(t, CurrentPortion, 3);
    assert IsFirst(t, LongBorrowings, 4);
    assert IsFirst(t, BondsPayable, 5);
  }

  /** A = 10 below B = 20 is a funding strain; A = 30 covers B = 20 but not
      B + C = 40, which is repayment pressure; A = 60 covers both: safe. */
  lemma DebtScenarios()
    ensures DebtRisk(Debts(10.0, 20.0, 5.0)) == StrainLabel
    ensures DebtRisk(Debts(30.0, 20.0, 20.0)) == PressureLabel
    ensures DebtRisk(Debts(60.0, 20.0, 20.0)) == SafeLabel
  {
    DebtsFigures(10.0, 20.0, 5.0);
    DebtRiskSpec(Debts(10.0, 20.0, 5.0), 10.0, 0.0, 20.0, 0.0, 5.0, 0.0);
    DebtsFigures(30.0, 20.0, 20.0);
    DebtRiskSpec(Debts(30.0, 20.0, 20.0), 30.0, 0.0, 20.0, 0.0, 20.0, 0.0);
    DebtsFigures(60.0, 20.0, 20.0);
    DebtRiskSpec(Debts(60.0, 20.0, 20.0), 60.0, 0.0, 20.0, 0.0, 20.0, 0.0);
  }

  /** Negative long-term figures: A = 15 reaches B + C = 20 - 10 but not
      B = 20, and rule 3 reports a funding strain rather than safety. */
  lemma NegativeLongTermDebt()
    ensures DebtRisk(Debts(15.0, 20.0, -10.0)) == StrainLabel
  {
    DebtsFigures(15.0, 20.0, -10.0);
    DebtRiskSpec(Debts(15.0, 20.0, -10.0), 15.0, 0.0, 20.0, 0.0, -10.0, 0.0);
  }
}

=== FILE: labels.dfy ===
/** The display labels the rules return and the markers embedded in them.
    Severity travels inside the label text: the aggregation step searches
    each label for the "❌" and "⚠️" markers. */
module Labels {

  const FailMarker: string := "❌"
  /** Two code points: U+26A0 followed by the emoji variation selector U+FE0F. */
  const WarnMarker: string := "⚠️"

  /** Shared by every rule whose inputs are missing or not numeric. */
  const NoData: string := "⚠️ 数据不足"

  /** Python's `sub in s` on strings: `sub` occurs somewhere in `s` as a
      contiguous run of code points. */
  predicate Contains(s: string, sub: string)
    decreases |s|
  {
    sub <= s || (|s| > 0 && Contains(s[1..], sub))
  }

  /** `sub` occurs in `s` starting at offset `i`. */
  ghost predicate OccursAt(s: string, sub: string, i: int)
  {
    0 <= i <= |s| - |sub| && s[i..i + |sub|] == sub
  }

  /** Occurrences found by position: `Contains` holds exactly when `sub`
      appears at some offset of `s`. */
  lemma ContainsAt(s: string, sub: string)
    ensures Contains(s, sub) <==> exists i :: OccursAt(s, sub, i)
  {
    if Contains(s, sub) {
      ContainsOccurs(s, sub);
    }
    if exists i :: OccursAt(s, sub, i) {
      var i :| OccursAt(s, sub, i);
      OccursContains(s, sub, i);
    }
  }

  /** A found pattern has an offset. */
  lemma {:induction false} ContainsOccurs(s: string, sub: string)
    requires Contains(s, sub)
    ensures exists i :: OccursAt(s, sub, i)
    decreases |s|
  {
    if sub <= s {
      assert s[0..|sub|] == sub;
      assert OccursAt(s, sub, 0);
    } else {
      ContainsOccurs(s[1..], sub);
      var i :| OccursAt(s[1..], sub, i);
      TailSlice(s, i + 1, |sub|);
      assert OccursAt(s, sub, i + 1);
    }
  }

  /** A pattern at some offset is found. */
  lemma {:induction false} OccursContains(s: string, sub: string, i: int)
    requires OccursAt(s, sub, i)
    ensures Contains(s, sub)
    decreases i
  {
    if i == 0 {
      assert sub <= s;
    } else {
      TailSlice(s, i, |sub|);
      assert OccursAt(s[1..], sub, i - 1);
      OccursContains(s[1..], sub, i - 1);
    }
  }

  /** A run of `s` starting at offset `i > 0` is the run of `s[1..]`
      starting one earlier. */
  lemma TailSlice(s: string, i: int, n: int)
    requires 1 <= i && 0 <= n && i + n <= |s|
    ensures s[i..i + n] == s[1..][i - 1..i - 1 + n]
  {
    var run, shifted := s[i..i + n], s[1..][i - 1..i - 1 + n];
    forall k | 0 <= k < n
      ensures run[k] == shifted[k]
    {
    }
  }

  /** A non-empty pattern cannot occur in a string lacking its first code point. */
  lemma {:induction false} NotContainsWithoutHead(s: string, sub: string)
    requires |sub| > 0 && sub[0] !in s
    ensures !Contains(s, sub)
  {
    if |s| > 0 {
      assert s[0] != sub[0];
      NotContainsWithoutHead(s[1..], sub);
    }
  }

  /** A label beginning with a marker contains it. */
  lemma PrefixContains(s: string, sub: string)
    requires sub <= s
    ensures Contains(s, sub)
  {
  }

  /** A prefix without the first code point of `sub` does not change
      whether `sub` occurs: an occurrence cannot start inside it. */
  lemma {:induction false} ContainsAfterPrefix(p: string, s: string, sub: string)
    requires |sub| > 0
    requires forall k :: 0 <= k < |p| ==> p[k] != sub[0]
    ensures Contains(p + s, sub) <==> Contains(s, sub)
  {
    if |p| > 0 {
      assert !(sub <= p + s) by {
        assert (p + s)[0] == p[0];
      }
      assert (p + s)[1..] == p[1..] + s;
      forall k | 0 <= k < |p[1..]|
        ensures p[1..][k] != sub[0]
      {
        assert p[1..][k] == p[k + 1];
      }
      ContainsAfterPrefix(p[1..], s, sub);
    } else {
      assert p + s == s;
    }
  }

  /** The severity a label signals, read the way the aggregation reads it:
      "❌" first, then "⚠️", otherwise nothing. */
  datatype Tier = Clear | Warning | Alarm

  function TierOf(v: string): (t: Tier)
  {
    if Contains(v, FailMarker) then Alarm
    else if Contains(v, WarnMarker) then Warning
    else Clear
  }

  /** The first code point of a label decides its tier when it is a marker
      and no other marker code point follows. */
  lemma {:induction false} TierOfMarked(v: string)
    requires |v| > 0
    requires '❌' !in v[1..] && '⚠' !in v[1..]
    ensures v[0] == '❌' ==> TierOf(v) == Alarm
    ensures FailMarker[0] !in v && WarnMarker <= v ==> TierOf(v) == Warning
    ensures v[0] == '✅' ==> TierOf(v) == Clear
  {
    if v[0] == '❌' {
      PrefixContains(v, FailMarker);
    }
    if FailMarker[0] !in v && WarnMarker <= v {
      NotContainsWithoutHead(v, FailMarker);
      PrefixContains(v, WarnMarker);
    }
    if v[0] == '✅' {
      NotContainsWithoutHead(v, FailMarker);
      NotContainsWithoutHead(v, WarnMarker);
    }
  }

  /** The shared insufficient-data label signals a warning. */
  lemma NoDataIsWarning()
    ensures TierOf(NoData) == Warning
  {
    TierOfMarked(NoData);
  }
}

=== FILE: report.dfy ===
/** The checker: fetch the three statements, run every rule, record each
    label under its fixed name, and add a final conclusion derived from the
    markers of all recorded values. */
module Report {
  import opened Wrappers
  import opened Statement
  import opened Labels
  import opened Rules

  // ----- The report as an insertion-ordered dictionary -----

  datatype Entry = Entry(key: string, value: string)

  /** A dictionary in insertion order, as `dict` iterates it. */
  type Report = seq<Entry>

  /** The keys of the report, in insertion order. */
  function Keys(r: Report): (ks: seq<string>)
  {
    seq(|r|, i requires 0 <= i < |r| => r[i].key)
  }

  /** `report.values()`, in insertion order. */
  function Values(r: Report): (vs: seq<string>)
  {
    seq(|r|, i requires 0 <= i < |r| => r[i].value)
  }

  ghost predicate DistinctKeys(r: Report)
  {
    forall i, j :: 0 <= i < j < |r| ==> r[i].key != r[j].key
  }

  /** `report.get(key)`. */
  function Get(r: Report, key: string): (v: Option<string>)
  {
    if |r| == 0 then None
    else if r[0].key == key then Some(r[0].value)
    else Get(r[1..], key)
  }

  /** `report[key] = value`: an existing key keeps its position and takes
      the new value; a new key is appended at the end. */
  function Put(r: Report, key: string, value: string): (r': Report)
    ensures (forall i :: 0 <= i < |r| ==> r[i].key != key) ==> r' == r + [Entry(key, value)]
  {
    if |r| == 0 then [Entry(key, value)]
    else if r[0].key == key then [Entry(key, value)] + r[1..]
    else [r[0]] + Put(r[1..], key, value)
  }

  /** After assignment the key maps to the new value and every other key
      maps to what it did before. */
  lemma {:induction false} PutGet(r: Report, key: string, value: string)
    ensures Get(Put(r, key, value), key) == Some(value)
    ensures forall k :: k != key ==> Get(Put(r, key, value), k) == Get(r, k)
  {
    if |r| > 0 && r[0].key != key {
      PutGet(r[1..], key, value);
      var r' := Put(r, key, value);
      assert r'[1..] == Put(r[1..], key, value);
    }
  }

  /** Assignment never reorders keys: overwriting keeps the key sequence
      and a new key goes last. */
  lemma {:induction false} PutKeys(r: Report, key: string, value: string)
    ensures key in Keys(r) ==> Keys(Put(r, key, value)) == Keys(r)
    ensures key !in Keys(r) ==> Keys(Put(r, key, value)) == Keys(r) + [key]
  {
    if |r| > 0 {
      var head := [r[0]];
      assert r == head + r[1..];
      KeysConcat(head, r[1..]);
      assert Keys(head) == [r[0].key];
      if r[0].key == key {
        var written := [Entry(key, value)];
        assert Put(r, key, value) == written + r[1..];
        KeysConcat(written, r[1..]);
        assert Keys(written) == [key];
      } else {
        var tail := Put(r[1..], key, value);
        assert Put(r, key, value) == head + tail;
        PutKeys(r[1..], key, value);
        KeysConcat(head, tail);
      }
    }
  }

  /** The keys of two dictionaries laid end to end are the keys of the
      first followed by the keys of the second. */
  lemma KeysConcat(a: Report, b: Report)
    ensures Keys(a + b) == Keys(a) + Keys(b)
  {
    assert forall i :: 0 <= i < |b| ==> (a + b)[|a| + i] == b[i];
  }

  /** Assignment keeps the keys of a dictionary distinct. */
  lemma PutDistinct(r: Report, key: string, value: string)
    requires DistinctKeys(r)
    ensures DistinctKeys(Put(r, key, value))
  {
    var r' := Put(r, key, value);
    var ks, ks' := Keys(r), Keys(r');
    PutKeys(r, key, value);
    forall i, j | 0 <= i < j < |ks'|
      ensures ks'[i] != ks'[j]
    {
      if key in ks {
        assert ks'[i] == ks[i] && ks'[j] == ks[j];
      } else if j < |ks| {
        assert ks'[i] == ks[i] && ks'[j] == ks[j];
      }
    }
    forall i, j | 0 <= i < j < |r'|
      ensures r'[i].key != r'[j].key
    {
      assert ks'[i] == r'[i].key && ks'[j] == r'[j].key;
    }
  }

  // ----- Classification -----

  const HighRisk: string := "高风险，建议排除"
  const MediumRisk: string := "中风险，需谨慎"
  const LowRisk: string := "低风险，可进一步研究"

  /** The conclusion: any value containing "❌" makes the stock high risk;
      failing that, any value containing "⚠️" makes it medium risk; else it
      is low risk. */
  function Classify(values: seq<string>): (c: string)
    ensures c == HighRisk || c == MediumRisk || c == LowRisk
  {
    if exists v :: v in values && Contains(v, FailMarker) then HighRisk
    else if exists v :: v in values && Contains(v, WarnMarker) then MediumRisk
    else LowRisk
  }

  /** The conclusion that belongs to a severity tier. */
  function ConclusionOf(t: Tier): (c: string)
  {
    match t
    case Alarm => HighRisk
    case Warning => MediumRisk
    case Clear => LowRisk
  }

  /** The more severe of two tiers: Alarm over Warning over Clear. */
  function Worse(a: Tier, b: Tier): (w: Tier)
  {
    if a == Alarm || b == Alarm then Alarm
    else if a == Warning || b == Warning then Warning
    else Clear
  }

  /** The most severe tier among the values, folded left to right. */
  function WorstTier(values: seq<string>): (w: Tier)
  {
    if |values| == 0 then Clear else Worse(TierOf(values[0]), WorstTier(values[1..]))
  }

  /** The fold reaches Alarm exactly when some value is alarming, and stays
      Clear exactly when every value is clear. */
  lemma {:induction false} WorstTierMembers(values: seq<string>)
    ensures WorstTier(values) == Alarm <==> exists v :: v in values && TierOf(v) == Alarm
    ensures WorstTier(values) == Clear <==> forall v :: v in values ==> TierOf(v) == Clear
  {
    if |values| > 0 {
      WorstTierMembers(values[1..]);
      assert values == [values[0]] + values[1..];
    }
  }

  /** Strict precedence: the scan for "❌" and then "⚠️" yields the
      conclusion of the most severe tier among the values, so one alarm
      outweighs any number of warnings. */
  lemma ClassifyIsWorstTier(values: seq<string>)
    ensures Classify(values) == ConclusionOf(WorstTier(values))
  {
    WorstTierMembers(values);
  }

  /** The conclusion depends on the values only as a set: reordering or
      repeating them changes nothing. */
  lemma ClassifyBySet(a: seq<string>, b: seq<string>)
    requires forall v :: v in a <==> v in b
    ensures WorstTier(a) == WorstTier(b)
    ensures Classify(a) == Classify(b)
  {
    WorstTierMembers(a);
    WorstTierMembers(b);
  }

  /** In particular, permuting the report's values keeps the conclusion. */
  lemma ClassifyPermutation(a: seq<string>, b: seq<string>)
    requires multiset(a) == multiset(b)
    ensures Classify(a) == Classify(b)
  {
    forall v
      ensures v in a <==> v in b
    {
      assert v in a <==> v in multiset(a);
      assert v in b <==> v in multiset(b);
    }
    ClassifyBySet(a, b);
  }

  // ----- The checker -----

  const TrendKey: string := "业绩趋势"
  const LiquidityKey: string := "流动性"
  const SolvencyKey: string := "偿债能力"
  const ErrorKey: string := "错误"
  const ConclusionKey: string := "最终结论"

  const FetchFailedPrefix: string := "数据抓取失败: "

  /** The three statements the data provider returns. The cash-flow
      statement is fetched but no implemented rule reads it. */
  datatype Statements = Statements(profit: Table, balance: Table, cashflow: Table)

  /** The five keys are different texts. */
  lemma KeysDistinct()
    ensures TrendKey != LiquidityKey && TrendKey != SolvencyKey && LiquidityKey != SolvencyKey
    ensures ConclusionKey !in [TrendKey, LiquidityKey, SolvencyKey, ErrorKey]
  {
    assert TrendKey[0] != LiquidityKey[0] && TrendKey[0] != SolvencyKey[0] && LiquidityKey[0] != SolvencyKey[0];
    assert ConclusionKey[0] !in [TrendKey[0], LiquidityKey[0], SolvencyKey[0], ErrorKey[0]];
  }

  /** Three assignments of different keys to an empty dictionary keep
      assignment order. */
  lemma PutThree(k1: string, v1: string, k2: string, v2: string, k3: string, v3: string)
    requires k1 != k2 && k1 != k3 && k2 != k3
    ensures Put(Put(Put([], k1, v1), k2, v2), k3, v3) == [Entry(k1, v1), Entry(k2, v2), Entry(k3, v3)]
  {
  }

  /** The entries of a fetch that succeeded: the three rule labels under
      their keys, in rule order. */
  function RuleFindings(growth: string, liquidity: string, solvency: string): (r: Report)
    ensures r == [Entry(TrendKey, growth), Entry(LiquidityKey, liquidity), Entry(SolvencyKey, solvency)]
  {
    KeysDistinct();
    PutThree(TrendKey, growth, LiquidityKey, liquidity, SolvencyKey, solvency);
    Put(Put(Put([], TrendKey, growth), LiquidityKey, liquidity), SolvencyKey, solvency)
  }

  /** The entries of a fetch that failed: the error text alone. */
  function ErrorFindings(error: string): (r: Report)
    ensures r == [Entry(ErrorKey, FetchFailedPrefix + error)]
  {
    Put([], ErrorKey, FetchFailedPrefix + error)
  }

  /** The report before the conclusion is added: one entry per rule, or the
      single error entry when fetching failed, in which case no rule runs. */
  function Findings(fetched: Result<Statements, string>): (r: Report)
    ensures fetched.Success? ==> r == [
      Entry(TrendKey, StableGrowth(fetched.value.profit)),
      Entry(LiquidityKey, Liquidity(fetched.value.balance)),
      Entry(SolvencyKey, DebtRisk(fetched.value.balance))]
    ensures fetched.Failure? ==> r == [Entry(ErrorKey, FetchFailedPrefix + fetched.error)]
  {
    match fetched
    case Success(s) => RuleFindings(StableGrowth(s.profit), Liquidity(s.balance), DebtRisk(s.balance))
    case Failure(e) => ErrorFindings(e)
  }

  /** Adds the conclusion, computed from the values present, under a key
      the report does not hold yet: it lands last and every earlier entry
      stays as it was. */
  function Conclude(findings: Report): (report: Report)
    requires ConclusionKey !in Keys(findings)
    ensures report == findings + [Entry(ConclusionKey, Classify(Values(findings)))]
  {
    assert forall i :: 0 <= i < |findings| ==> Keys(findings)[i] == findings[i].key;
    Put(findings, ConclusionKey, Classify(Values(findings)))
  }

  /** The keys of a report after a successful fetch: the three rule keys,
      then the conclusion, all different. */
  lemma RuleReportKeys(growth: string, liquidity: string, solvency: string, conclusion: string)
    ensures Keys(RuleFindings(growth, liquidity, solvency)) == [TrendKey, LiquidityKey, SolvencyKey]
    ensures Keys(RuleFindings(growth, liquidity, solvency) + [Entry(ConclusionKey, conclusion)]) ==
      [TrendKey, LiquidityKey, SolvencyKey, ConclusionKey]
    ensures DistinctKeys(RuleFindings(growth, liquidity, solvency) + [Entry(ConclusionKey, conclusion)])
  {
    KeysDistinct();
  }

  /** The keys of a report after a failed fetch: the error key, then the
      conclusion. */
  lemma ErrorReportKeys(error: string, conclusion: string)
    ensures Keys(ErrorFindings(error)) == [ErrorKey]
    ensures Keys(ErrorFindings(error) + [Entry(ConclusionKey, conclusion)]) == [ErrorKey, ConclusionKey]
    ensures DistinctKeys(ErrorFindings(error) + [Entry(ConclusionKey, conclusion)])
  {
    KeysDistinct();
  }

  /** The findings never hold the conclusion key. */
  lemma FindingsKeys(fetched: Result<Statements, string>)
    ensures ConclusionKey !in Keys(Findings(fetched))
  {
    KeysDistinct();
    match fetched
    case Success(s) =>
      RuleReportKeys(StableGrowth(s.profit), Liquidity(s.balance), DebtRisk(s.balance), LowRisk);
    case Failure(e) =>
      ErrorReportKeys(e, LowRisk);
  }

  /** `check_risks`, given what fetching the statements produced. The
      conclusion is computed from the entries recorded before it and then
      appended last, so it never reads itself. */
  function CheckRisks(fetched: Result<Statements, string>): (report: Report)
    ensures |report| == |Findings(fetched)| + 1 && report[|report| - 1].key == ConclusionKey
  {
    FindingsKeys(fetched);
    Conclude(Findings(fetched))
  }

  /** The shape of a report: distinct keys; the findings, then the
      conclusion classified from exactly those findings; the three rule keys
      in rule order after a successful fetch, the error key alone after a
      failed one. */
  lemma CheckRisksShape(fetched: Result<Statements, string>)
    ensures DistinctKeys(CheckRisks(fetched))
    ensures CheckRisks(fetched)[..|CheckRisks(fetched)| - 1] == Findings(fetched)
    ensures CheckRisks(fetched)[|CheckRisks(fetched)| - 1] ==
      Entry(ConclusionKey, Classify(Values(CheckRisks(fetched)[..|CheckRisks(fetched)| - 1])))
    ensures fetched.Success? ==> Keys(CheckRisks(fetched)) == [TrendKey, LiquidityKey, SolvencyKey, ConclusionKey]
    ensures fetched.Failure? ==> Keys(CheckRisks(fetched)) == [ErrorKey, ConclusionKey]
  {
    var f := Findings(fetched);
    var report := CheckRisks(fetched);
    FindingsKeys(fetched);
    assert report == f + [Entry(ConclusionKey, Classify(Values(f)))];
    assert report[..|report| - 1] == f;
    match fetched
    case Success(s) =>
      RuleReportKeys(StableGrowth(s.profit), Liquidity(s.balance), DebtRisk(s.balance), Classify(Values(f)));
    case Failure(e) =>
      ErrorReportKeys(e, Classify(Values(f)));
  }

  /** The severity a rule 1 label signals: an alarm exactly for the
      volatile label, nothing exactly for stable growth. */
  lemma GrowthTier(g: string)
    requires g == StableLabel || g == VolatileLabel || g == NoData
    ensures TierOf(g) == Alarm <==> g == VolatileLabel
    ensures TierOf(g) == Clear <==> g == StableLabel
  {
    GrowthLabelTiers();
    NoDataIsWarning();
  }

  /** The severity a rule 2 label signals: an alarm exactly for the
      liquidity-risk label, nothing exactly for the normal label. */
  lemma LiquidityTier(l: string)
    requires l == NormalLabel || l == LiquidityRiskLabel || l == NoData
    ensures TierOf(l) == Alarm <==> l == LiquidityRiskLabel
    ensures TierOf(l) == Clear <==> l == NormalLabel
  {
    LiquidityLabelTiers();
    NoDataIsWarning();
  }

  /** The severity a rule 3 label signals: an alarm exactly for funding
      strain, nothing exactly for the safe label, a warning for repayment
      pressure and for missing data alike. */
  lemma DebtTier(d: string)
    requires d == SafeLabel || d == PressureLabel || d == StrainLabel || d == NoData
    ensures TierOf(d) == Alarm <==> d == StrainLabel
    ensures TierOf(d) == Clear <==> d == SafeLabel
  {
    DebtLabelTiers();
    NoDataIsWarning();
  }

  /** The conclusion drawn from one label per rule: high risk exactly when
      some label is a failure, low risk exactly when all three pass, medium
      risk otherwise. */
  lemma ConclusionOfLabels(g: string, l: string, d: string)
    requires g == StableLabel || g == VolatileLabel || g == NoData
    requires l == NormalLabel || l == LiquidityRiskLabel || l == NoData
    requires d == SafeLabel || d == PressureLabel || d == StrainLabel || d == NoData
    ensures ConclusionOf(Worse(TierOf(g), Worse(TierOf(l), TierOf(d)))) == HighRisk <==>
      g == VolatileLabel || l == LiquidityRiskLabel || d == StrainLabel
    ensures ConclusionOf(Worse(TierOf(g), Worse(TierOf(l), TierOf(d)))) == MediumRisk <==>
      && g != VolatileLabel && l != LiquidityRiskLabel && d != StrainLabel
      && (g != StableLabel || l != NormalLabel || d != SafeLabel)
    ensures ConclusionOf(Worse(TierOf(g), Worse(TierOf(l), TierOf(d)))) == LowRisk <==>
      g == StableLabel && l == NormalLabel && d == SafeLabel
  {
    GrowthTier(g);
    LiquidityTier(l);
    DebtTier(d);
    ConclusionOfTiers(TierOf(g), TierOf(l), TierOf(d));
  }

  /** The conclusion entry holds the classification of the entries before it. */
  lemma ConclusionEntry(fetched: Result<Statements, string>)
    ensures Get(CheckRisks(fetched), ConclusionKey) == Some(Classify(Values(Findings(fetched))))
  {
    var f := Findings(fetched);
    PutGet(f, ConclusionKey, Classify(Values(f)));
    assert CheckRisks(fetched) == Put(f, ConclusionKey, Classify(Values(f)));
  }

  /** The conclusion of a completed check in terms of the three rules: high
      risk exactly when some rule fails; medium risk exactly when none
      fails but one lacks data or rule 3 sees repayment pressure; low risk
      exactly when all three pass. */
  lemma ConclusionOfRules(s: Statements)
    ensures Get(CheckRisks(Success(s)), ConclusionKey) == Some(HighRisk) <==>
      || StableGrowth(s.profit) == VolatileLabel
      || Liquidity(s.balance) == LiquidityRiskLabel
      || DebtRisk(s.balance) == StrainLabel
    ensures Get(CheckRisks(Success(s)), ConclusionKey) == Some(MediumRisk) <==>
      && StableGrowth(s.profit) != VolatileLabel
      && Liquidity(s.balance) != LiquidityRiskLabel
      && DebtRisk(s.balance) != StrainLabel
      && (|| StableGrowth(s.profit) != StableLabel
          || Liquidity(s.balance) != NormalLabel
          || DebtRisk(s.balance) != SafeLabel)
    ensures Get(CheckRisks(Success(s)), ConclusionKey) == Some(LowRisk) <==>
      StableGrowth(s.profit) == StableLabel && Liquidity(s.balance) == NormalLabel && DebtRisk(s.balance) == SafeLabel
  {
    RuleConclusion(s);
    ConclusionOfLabels(StableGrowth(s.profit), Liquidity(s.balance), DebtRisk(s.balance));
  }

  /** Precedence over three tiers, stated one conclusion at a time. */
  lemma ConclusionOfTiers(a: Tier, b: Tier, c: Tier)
    ensures ConclusionOf(Worse(a, Worse(b, c))) == HighRisk <==> a == Alarm || b == Alarm || c == Alarm
    ensures ConclusionOf(Worse(a, Worse(b, c))) == MediumRisk <==>
      a != Alarm && b != Alarm && c != Alarm && (a != Clear || b != Clear || c != Clear)
    ensures ConclusionOf(Worse(a, Worse(b, c))) == LowRisk <==> a == Clear && b == Clear && c == Clear
  {
    ConclusionsDistinct();
  }

  /** After a successful fetch the conclusion is that of the most severe
      tier the three rules signal. */
  lemma RuleConclusion(s: Statements)
    ensures Get(CheckRisks(Success(s)), ConclusionKey) == Some(ConclusionOf(Worse(
      TierOf(StableGrowth(s.profit)), Worse(TierOf(Liquidity(s.balance)), TierOf(DebtRisk(s.balance))))))
  {
    var g, l, d := StableGrowth(s.profit), Liquidity(s.balance), DebtRisk(s.balance);
    ConclusionEntry(Success(s));
    assert Findings(Success(s)) == RuleFindings(g, l, d);
    RuleValues(g, l, d);
    ClassifyTriple(g, l, d);
  }

  /** The values of the findings of a successful fetch are the three labels. */
  lemma RuleValues(g: string, l: string, d: string)
    ensures Values(RuleFindings(g, l, d)) == [g, l, d]
  {
    var f := RuleFindings(g, l, d);
    assert Values(f)[0] == g && Values(f)[1] == l && Values(f)[2] == d;
  }

  /** The conclusion of three values is that of the most severe of their tiers. */
  lemma ClassifyTriple(g: string, l: string, d: string)
    ensures Classify([g, l, d]) == ConclusionOf(Worse(TierOf(g), Worse(TierOf(l), TierOf(d))))
  {
    var vs := [g, l, d];
    ClassifyIsWorstTier(vs);
    assert vs[1..] == [l, d] && vs[1..][1..] == [d] && vs[1..][1..][1..] == [];
  }

  /** The three conclusions are different texts. */
  lemma ConclusionsDistinct()
    ensures HighRisk != MediumRisk && HighRisk != LowRisk && MediumRisk != LowRisk
  {
    assert HighRisk[0] != MediumRisk[0] && HighRisk[0] != LowRisk[0] && MediumRisk[0] != LowRisk[0];
  }

  /** The fixed prefix of the error entry holds no marker code point, so
      the entry signals exactly what the error text signals. */
  lemma PrefixTier(e: string)
    ensures TierOf(FetchFailedPrefix + e) == TierOf(e)
  {
    ContainsAfterPrefix(FetchFailedPrefix, e, FailMarker);
    ContainsAfterPrefix(FetchFailedPrefix, e, WarnMarker);
  }

  /** A failed fetch yields the error entry and the conclusion drawn from it. */
  lemma FailureReport(e: string)
    ensures CheckRisks(Failure(e)) ==
      [Entry(ErrorKey, FetchFailedPrefix + e), Entry(ConclusionKey, Classify([FetchFailedPrefix + e]))]
  {
    var f := ErrorFindings(e);
    assert Values(f) == [FetchFailedPrefix + e];
    assert CheckRisks(Failure(e)) == Conclude(f);
  }

  /** A failed fetch is classified by the markers of the provider's error
      text alone, since the fixed prefix carries none. */
  lemma FetchFailureConclusion(e: string)
    ensures CheckRisks(Failure(e)) ==
      [Entry(ErrorKey, FetchFailedPrefix + e), Entry(ConclusionKey, ConclusionOf(TierOf(e)))]
  {
    FailureReport(e);
    PrefixTier(e);
    ClassifyIsWorstTier([FetchFailedPrefix + e]);
  }

  /** An error text without markers, the usual case, makes a stock whose
      statements could not even be fetched come out as low risk. */
  lemma UnmarkedFetchFailureIsLowRisk(e: string)
    requires FailMarker[0] !in e && WarnMarker[0] !in e
    ensures Get(CheckRisks(Failure(e)), ConclusionKey) == Some(LowRisk)
  {
    FetchFailureConclusion(e);
    NotContainsWithoutHead(e, FailMarker);
    NotContainsWithoutHead(e, WarnMarker);
  }
}

=== FILE: rules.dfy ===
/** The three implemented risk-elimination rules. Each reads named line
    items of one statement and returns one label from a fixed set; every
    failure to read a line item ends in the shared insufficient-data label
    instead of an error. */
module Rules {
  import opened Wrappers
  import opened Statement
  import opened Labels
  import opened Changes

  // ----- Rule 1: stable growth (income statement) -----

  const Revenue: string := "营业总收入"
  const NetProfit: string := "净利润"

  const StableLabel: string := "✅ 稳定增长"
  const VolatileLabel: string := "❌ 波动过大"

  /** Rule 1: every period-over-period change of total operating revenue and
      of net profit must stay above -20%. The check is `min > -0.2` over all
      changes of all rows with that label; with no defined change the
      minimum is NaN and the comparison is false. */
  function StableGrowth(profit: Table): (r: string)
    ensures r == StableLabel || r == VolatileLabel || r == NoData
  {
    match (NumericRows(Select(profit, Revenue)), NumericRows(Select(profit, NetProfit)))
    case (Some(income), Some(net)) =>
      if Above(Min(MatrixChanges(income))) && Above(Min(MatrixChanges(net))) then StableLabel
      else VolatileLabel
    case _ => NoData
  }

  /** `c` is the change between periods `k - 1` and `k` of the `i`-th row of
      `t`, a row labelled `item`. */
  ghost predicate PeriodChange(t: Table, item: string, i: int, k: int, c: Change)
  {
    && 0 <= i < |t|
    && t[i].item == item
    && 1 <= k < |t[i].cells|
    && t[i].cells[k - 1].Num?
    && t[i].cells[k].Num?
    && c == PctChange(t[i].cells[k - 1].value, t[i].cells[k].value)
  }

  /** `item` grows steadily: some change between adjacent periods is
      defined, and every defined one is above -20%. */
  ghost predicate Steady(t: Table, item: string)
  {
    && (exists i, k, c :: PeriodChange(t, item, i, k, c) && !c.NaN?)
    && (forall i, k, c :: PeriodChange(t, item, i, k, c) && !c.NaN? ==> Above(c))
  }

  /** The pairs of adjacent periods of a numeric selection are exactly the
      pairs of adjacent periods of the table's rows with that label. */
  lemma PairChangeBridge(t: Table, item: string, m: seq<seq<real>>, c: Change)
    requires NumericRows(Select(t, item)) == Some(m)
    ensures (exists k, j :: IsPairChange(m, c, k, j)) <==> (exists i, j :: PeriodChange(t, item, i, j, c))
  {
    if exists k, j :: IsPairChange(m, c, k, j) {
      var k, j :| IsPairChange(m, c, k, j);
      PairToPeriod(t, item, m, c, k, j);
    }
    if exists i, j :: PeriodChange(t, item, i, j, c) {
      var i, j :| PeriodChange(t, item, i, j, c);
      PeriodToPair(t, item, m, c, i, j);
    }
  }

  /** A change between adjacent periods of the selection is one of the table. */
  lemma PairToPeriod(t: Table, item: string, m: seq<seq<real>>, c: Change, k: int, j: int)
    requires NumericRows(Select(t, item)) == Some(m)
    requires IsPairChange(m, c, k, j)
    ensures exists i :: PeriodChange(t, item, i, j, c)
  {
    var rows := Select(t, item);
    assert Numbers(rows[k].cells) == Some(m[k]);
    assert rows[k] in t;
    var i :| 0 <= i < |t| && t[i] == rows[k];
    assert PeriodChange(t, item, i, j, c);
  }

  /** A change between adjacent periods of the table is one of the selection. */
  lemma PeriodToPair(t: Table, item: string, m: seq<seq<real>>, c: Change, i: int, j: int)
    requires NumericRows(Select(t, item)) == Some(m)
    requires PeriodChange(t, item, i, j, c)
    ensures exists k :: IsPairChange(m, c, k, j)
  {
    var rows := Select(t, item);
    assert t[i] in rows;
    var k :| 0 <= k < |rows| && rows[k] == t[i];
    assert Numbers(rows[k].cells) == Some(m[k]);
    assert IsPairChange(m, c, k, j);
  }

  /** For a numeric selection, the threshold test of rule 1 on one label
      passes exactly when that label grows steadily. */
  lemma ItemThreshold(t: Table, item: string, m: seq<seq<real>>)
    requires NumericRows(Select(t, item)) == Some(m)
    ensures Above(Min(MatrixChanges(m))) <==> Steady(t, item)
  {
    ThresholdSteady(t, item, m);
    SteadyThreshold(t, item, m);
  }

  /** One direction of `ItemThreshold`: passing the threshold means steady growth. */
  lemma ThresholdSteady(t: Table, item: string, m: seq<seq<real>>)
    ensures NumericRows(Select(t, item)) == Some(m) && Above(Min(MatrixChanges(m))) ==> Steady(t, item)
  {
    if !(NumericRows(Select(t, item)) == Some(m) && Above(Min(MatrixChanges(m)))) {
      return;
    }
    var cs := MatrixChanges(m);
    MinAbove(cs);
    DefinedChangesArePairs(m);
    var c0 :| c0 in cs && !c0.NaN?;
    PairChangeBridge(t, item, m, c0);
    forall i, k, c | PeriodChange(t, item, i, k, c) && !c.NaN?
      ensures Above(c)
    {
      PairChangeBridge(t, item, m, c);
      var k', j' :| IsPairChange(m, c, k', j');
      PairChangesPresent(m);
    }
  }

  /** The other direction of `ItemThreshold`: steady growth passes the threshold. */
  lemma SteadyThreshold(t: Table, item: string, m: seq<seq<real>>)
    ensures NumericRows(Select(t, item)) == Some(m) && Steady(t, item) ==> Above(Min(MatrixChanges(m)))
  {
    if !(NumericRows(Select(t, item)) == Some(m) && Steady(t, item)) {
      return;
    }
    var cs := MatrixChanges(m);
    var i0, k0, c0 :| PeriodChange(t, item, i0, k0, c0) && !c0.NaN?;
    PairChangeBridge(t, item, m, c0);
    var k1, j1 :| IsPairChange(m, c0, k1, j1);
    PairChangesPresent(m);
    assert c0 in cs;
    DefinedChangesArePairs(m);
    forall c | c in cs && !c.NaN?
      ensures Above(c)
    {
      PairChangeBridge(t, item, m, c);
    }
    MinAbove(cs);
  }

  /** Rule 1 in terms of the table: insufficient data exactly when a
      revenue or net-profit cell is not numeric; otherwise stable growth
      exactly when both line items grow steadily. */
  lemma StableGrowthSpec(profit: Table)
    ensures StableGrowth(profit) == NoData <==> !AllNumeric(profit, Revenue) || !AllNumeric(profit, NetProfit)
    ensures StableGrowth(profit) == StableLabel <==>
      AllNumeric(profit, Revenue) && AllNumeric(profit, NetProfit) && Steady(profit, Revenue) && Steady(profit, NetProfit)
    ensures StableGrowth(profit) == VolatileLabel <==>
      AllNumeric(profit, Revenue) && AllNumeric(profit, NetProfit) && !(Steady(profit, Revenue) && Steady(profit, NetProfit))
  {
    SelectNumeric(profit, Revenue);
    SelectNumeric(profit, NetProfit);
    var income := NumericRows(Select(profit, Revenue));
    var net := NumericRows(Select(profit, NetProfit));
    if income.Some? && net.Some? {
      ItemThreshold(profit, Revenue, income.value);
      ItemThreshold(profit, NetProfit, net.value);
    }
  }

  /** Periods `k - 1` and `k` of row `i`, a row labelled `item`, both hold numbers. */
  ghost predicate NumericPair(t: Table, item: string, i: int, k: int)
  {
    && 0 <= i < |t|
    && t[i].item == item
    && 1 <= k < |t[i].cells|
    && t[i].cells[k - 1].Num?
    && t[i].cells[k].Num?
  }

  /** Every earlier period of a row labelled `item` is non-zero. */
  ghost predicate NonZeroPrevious(t: Table, item: string)
  {
    forall i, k :: NumericPair(t, item, i, k) ==> t[i].cells[k - 1].value != 0.0
  }

  /** The textbook growth rate `(x[k] - x[k-1]) / x[k-1]` of a pair of periods. */
  ghost function Rate(t: Table, item: string, i: int, k: int): (r: real)
    requires NumericPair(t, item, i, k) && t[i].cells[k - 1].value != 0.0
  {
    (t[i].cells[k].value - t[i].cells[k - 1].value) / t[i].cells[k - 1].value
  }

  /** With non-zero earlier periods, `item` grows steadily exactly when it
      has at least one pair of adjacent periods and every pair's growth
      rate is strictly above -20%. */
  lemma SteadyNonZero(t: Table, item: string)
    requires NonZeroPrevious(t, item)
    ensures Steady(t, item) <==>
      && (exists i, k :: NumericPair(t, item, i, k))
      && (forall i, k :: NumericPair(t, item, i, k) ==> Rate(t, item, i, k) > -0.2)
  {
    if Steady(t, item) {
      var i, k, c :| PeriodChange(t, item, i, k, c) && !c.NaN?;
      assert NumericPair(t, item, i, k);
      forall i, k | NumericPair(t, item, i, k)
        ensures Rate(t, item, i, k) > -0.2
      {
        var c := PctChange(t[i].cells[k - 1].value, t[i].cells[k].value);
        assert PeriodChange(t, item, i, k, c);
      }
    }
    if (exists i, k :: NumericPair(t, item, i, k))
      && (forall i, k :: NumericPair(t, item, i, k) ==> Rate(t, item, i, k) > -0.2)
    {
      var i, k :| NumericPair(t, item, i, k);
      var c := PctChange(t[i].cells[k - 1].value, t[i].cells[k].value);
      assert PeriodChange(t, item, i, k, c) && !c.NaN?;
      forall i, k, c | PeriodChange(t, item, i, k, c) && !c.NaN?
        ensures Above(c)
      {
        assert NumericPair(t, item, i, k);
      }
    }
  }

  /** Rule 1 for statements whose earlier periods are non-zero: stable
      growth exactly when every cell of both line items is numeric, each
      has a pair of adjacent periods, and every such pair's growth rate is
      strictly above -20%. */
  lemma StableGrowthRates(profit: Table)
    requires NonZeroPrevious(profit, Revenue) && NonZeroPrevious(profit, NetProfit)
    ensures StableGrowth(profit) == StableLabel <==>
      && AllNumeric(profit, Revenue) && AllNumeric(profit, NetProfit)
      && (exists i, k :: NumericPair(profit, Revenue, i, k))
      && (exists i, k :: NumericPair(profit, NetProfit, i, k))
      && (forall i, k :: NumericPair(profit, Revenue, i, k) ==> Rate(profit, Revenue, i, k) > -0.2)
      && (forall i, k :: NumericPair(profit, NetProfit, i, k) ==> Rate(profit, NetProfit, i, k) > -0.2)
  {
    StableGrowthSpec(profit);
    SteadyNonZero(profit, Revenue);
    SteadyNonZero(profit, NetProfit);
  }

  /** In exact arithmetic a decline of exactly 20% in either line item is
      not tolerated, because the comparison with -0.2 is strict. Rounded
      doubles compute such a decline as slightly above -0.2 instead. */
  lemma ExactFifthDropIsVolatile(profit: Table, item: string, i: int, k: int)
    requires item == Revenue || item == NetProfit
    requires AllNumeric(profit, Revenue) && AllNumeric(profit, NetProfit)
    requires PeriodChange(profit, item, i, k, Finite(-0.2))
    ensures StableGrowth(profit) == VolatileLabel
  {
    StableGrowthSpec(profit);
  }

  /** With no pair of adjacent periods for revenue or for net profit (a
      single data column, or no row with that label at all) there is no
      defined change, the minimum is NaN and numeric data yields the
      volatile label, not insufficient data. */
  lemma NoPairIsVolatile(profit: Table, item: string)
    requires item == Revenue || item == NetProfit
    requires AllNumeric(profit, Revenue) && AllNumeric(profit, NetProfit)
    requires forall i :: 0 <= i < |profit| && profit[i].item == item ==> |profit[i].cells| <= 1
    ensures StableGrowth(profit) == VolatileLabel
  {
    StableGrowthSpec(profit);
  }

  // ----- Rule 2: liquidity (balance sheet, first data column) -----

  const CurrentAssets: string := "流动资产合计"
  const CurrentLiabilities: string := "流动负债合计"

  const LiquidityRiskLabel: string := "❌ 流动性风险"
  const NormalLabel: string := "✅ 正常"

  /** Rule 2: current assets strictly below current liabilities is a
      liquidity risk. */
  function Liquidity(balance: Table): (r: string)
    ensures r == LiquidityRiskLabel || r == NormalLabel || r == NoData
  {
    match (FirstValue(balance, CurrentAssets), FirstValue(balance, CurrentLiabilities))
    case (Some(ca), Some(cl)) => if ca < cl then LiquidityRiskLabel else NormalLabel
    case _ => NoData
  }

  /** Rule 2 in terms of the table's figures: the risk label exactly when
      current assets are strictly below current liabilities, normal when
      they are equal or above. */
  lemma LiquiditySpec(balance: Table, ca: real, cl: real)
    requires Figure(balance, CurrentAssets, ca) && Figure(balance, CurrentLiabilities, cl)
    ensures Liquidity(balance) == LiquidityRiskLabel <==> ca < cl
    ensures Liquidity(balance) == NormalLabel <==> cl <= ca
  {
    FigureRead(balance, CurrentAssets, ca);
    FigureRead(balance, CurrentLiabilities, cl);
  }

  /** Rule 2 reports insufficient data exactly when either figure is
      missing: no row, no data cell, or a non-numeric first cell. */
  lemma LiquidityNoData(balance: Table)
    ensures Liquidity(balance) == NoData <==>
      (forall x :: !Figure(balance, CurrentAssets, x)) || (forall x :: !Figure(balance, CurrentLiabilities, x))
  {
    FirstValueIsFigure(balance, CurrentAssets);
    FirstValueIsFigure(balance, CurrentLiabilities);
  }

  // ----- Rule 3: debt risk, A against B + C (balance sheet, first data column) -----

  const Cash: string := "货币资金"
  const TradingAssets: string := "交易性金融资产"
  const ShortBorrowings: string := "短期借款"
  const CurrentPortion: string := "一年内到期的非流动负债"
  const LongBorrowings: string := "长期借款"
  const BondsPayable: string := "应付债券"

  const StrainLabel: string := "❌ 资金链紧张"
  const PressureLabel: string := "⚠️ 偿债压力大"
  const SafeLabel: string := "✅ 安全"

  /** A: cash at hand; B: debt due within a year; C: long-term debt. */
  datatype Funds = Funds(a: real, b: real, c: real)

  /** The sum of the figures of two line items, None when either cannot
      be read. */
  function SumOf(balance: Table, first: string, second: string): (s: Option<real>)
  {
    match (FirstValue(balance, first), FirstValue(balance, second))
    case (Some(x), Some(y)) => Some(x + y)
    case _ => None
  }

  /** The three sums rule 3 compares, None when any of the six figures
      cannot be read. */
  function DebtFunds(balance: Table): (f: Option<Funds>)
  {
    match (SumOf(balance, Cash, TradingAssets), SumOf(balance, ShortBorrowings, CurrentPortion),
           SumOf(balance, LongBorrowings, BondsPayable))
    case (Some(a), Some(b), Some(c)) => Some(Funds(a, b, c))
    case _ => None
  }

  /** Rule 3: cash below short-term debt is a funding strain; cash covering
      short-term but not all debt is repayment pressure; otherwise safe. */
  function DebtRisk(balance: Table): (r: string)
    ensures r == StrainLabel || r == PressureLabel || r == SafeLabel || r == NoData
  {
    match DebtFunds(balance)
    case Some(Funds(a, b, c)) =>
      if a < b then StrainLabel
      else if a < b + c then PressureLabel
      else SafeLabel
    case None => NoData
  }

  /** Two figures read, their sum is read. */
  lemma SumRead(balance: Table, first: string, second: string, x: real, y: real)
    requires FirstValue(balance, first) == Some(x) && FirstValue(balance, second) == Some(y)
    ensures SumOf(balance, first, second) == Some(x + y)
  {
  }

  /** Rule 3 once the six figures are read. */
  lemma DebtRiskOfValues(balance: Table, cash: real, fin: real, short: real, due: real, long: real, bonds: real)
    requires FirstValue(balance, Cash) == Some(cash) && FirstValue(balance, TradingAssets) == Some(fin)
    requires FirstValue(balance, ShortBorrowings) == Some(short) && FirstValue(balance, CurrentPortion) == Some(due)
    requires FirstValue(balance, LongBorrowings) == Some(long) && FirstValue(balance, BondsPayable) == Some(bonds)
    ensures DebtRisk(balance) == StrainLabel <==> cash + fin < short + due
    ensures DebtRisk(balance) == PressureLabel <==> short + due <= cash + fin < short + due + long + bonds
    ensures DebtRisk(balance) == SafeLabel <==> short + due <= cash + fin && short + due + long + bonds <= cash + fin
  {
    SumRead(balance, Cash, TradingAssets, cash, fin);
    SumRead(balance, ShortBorrowings, CurrentPortion, short, due);
    SumRead(balance, LongBorrowings, BondsPayable, long, bonds);
    DebtRiskOfFunds(balance, cash + fin, short + due, long + bonds);
  }

  /** Rule 3 in terms of the six figures, with A = cash + trading financial
      assets, B = short-term borrowings + current portion of non-current
      liabilities, C = long-term borrowings + bonds payable. The three
      outcomes are exhaustive and mutually exclusive. Safe needs A >= B as
      well as A >= B + C; the second alone suffices only when C >= 0. */
  lemma DebtRiskSpec(balance: Table, cash: real, fin: real, short: real, due: real, long: real, bonds: real)
    requires Figure(balance, Cash, cash) && Figure(balance, TradingAssets, fin)
    requires Figure(balance, ShortBorrowings, short) && Figure(balance, CurrentPortion, due)
    requires Figure(balance, LongBorrowings, long) && Figure(balance, BondsPayable, bonds)
    ensures DebtRisk(balance) == StrainLabel <==> cash + fin < short + due
    ensures DebtRisk(balance) == PressureLabel <==> short + due <= cash + fin < short + due + long + bonds
    ensures DebtRisk(balance) == SafeLabel <==> short + due <= cash + fin && short + due + long + bonds <= cash + fin
    ensures long + bonds >= 0.0 ==> (DebtRisk(balance) == SafeLabel <==> cash + fin >= short + due + long + bonds)
  {
    DebtFiguresRead(balance, cash, fin, short, due, long, bonds);
    DebtRiskOfValues(balance, cash, fin, short, due, long, bonds);
  }

  /** The tier boundaries of rule 3 on the three sums. */
  lemma DebtRiskOfFunds(balance: Table, a: real, b: real, c: real)
    requires DebtFunds(balance) == Some(Funds(a, b, c))
    ensures DebtRisk(balance) == StrainLabel <==> a < b
    ensures DebtRisk(balance) == PressureLabel <==> b <= a < b + c
    ensures DebtRisk(balance) == SafeLabel <==> b <= a && b + c <= a
  {
    DebtLabelsDistinct();
  }

  /** The four possible answers of rule 3 are different texts. */
  lemma DebtLabelsDistinct()
    ensures StrainLabel != PressureLabel && StrainLabel != SafeLabel && PressureLabel != SafeLabel
    ensures NoData !in [StrainLabel, PressureLabel, SafeLabel]
  {
    assert StrainLabel[0] != PressureLabel[0] && StrainLabel[0] != SafeLabel[0] && PressureLabel[0] != SafeLabel[0];
    assert NoData[0] != StrainLabel[0] && NoData[0] != SafeLabel[0] && NoData[3] != PressureLabel[3];
  }

  /** The six figures are what `FirstValue` reads for the six line items. */
  lemma DebtFiguresRead(balance: Table, cash: real, fin: real, short: real, due: real, long: real, bonds: real)
    requires Figure(balance, Cash, cash) && Figure(balance, TradingAssets, fin)
    requires Figure(balance, ShortBorrowings, short) && Figure(balance, CurrentPortion, due)
    requires Figure(balance, LongBorrowings, long) && Figure(balance, BondsPayable, bonds)
    ensures FirstValue(balance, Cash) == Some(cash) && FirstValue(balance, TradingAssets) == Some(fin)
    ensures FirstValue(balance, ShortBorrowings) == Some(short) && FirstValue(balance, CurrentPortion) == Some(due)
    ensures FirstValue(balance, LongBorrowings) == Some(long) && FirstValue(balance, BondsPayable) == Some(bonds)
  {
    FigureRead(balance, Cash, cash);
    FigureRead(balance, TradingAssets, fin);
    FigureRead(balance, ShortBorrowings, short);
    FigureRead(balance, CurrentPortion, due);
    FigureRead(balance, LongBorrowings, long);
    FigureRead(balance, BondsPayable, bonds);
  }

  /** No figure can be read for `item`. */
  ghost predicate Missing(balance: Table, item: string)
  {
    forall x :: !Figure(balance, item, x)
  }

  /** Rule 3 reports insufficient data exactly when one of its six figures
      is missing. */
  lemma DebtRiskNoData(balance: Table)
    ensures DebtRisk(balance) == NoData <==>
      || Missing(balance, Cash) || Missing(balance, TradingAssets)
      || Missing(balance, ShortBorrowings) || Missing(balance, CurrentPortion)
      || Missing(balance, LongBorrowings) || Missing(balance, BondsPayable)
  {
    DebtRiskNoValue(balance);
    MissingIsUnread(balance, Cash);
    MissingIsUnread(balance, TradingAssets);
    MissingIsUnread(balance, ShortBorrowings);
    MissingIsUnread(balance, CurrentPortion);
    MissingIsUnread(balance, LongBorrowings);
    MissingIsUnread(balance, BondsPayable);
  }

  /** Rule 3 reports insufficient data exactly when one of its six reads fails. */
  lemma DebtRiskNoValue(balance: Table)
    ensures DebtRisk(balance) == NoData <==>
      || FirstValue(balance, Cash).None? || FirstValue(balance, TradingAssets).None?
      || FirstValue(balance, ShortBorrowings).None? || FirstValue(balance, CurrentPortion).None?
      || FirstValue(balance, LongBorrowings).None? || FirstValue(balance, BondsPayable).None?
  {
    DebtLabelsDistinct();
  }

  /** A figure is missing exactly when reading it fails. */
  lemma MissingIsUnread(balance: Table, item: string)
    ensures Missing(balance, item) <==> FirstValue(balance, item).None?
  {
    FirstValueIsFigure(balance, item);
  }

  // ----- Severity of the rule labels -----

  /** The labels of rule 1 carry the marker of their tier and no other. */
  lemma GrowthLabelTiers()
    ensures TierOf(StableLabel) == Clear && TierOf(VolatileLabel) == Alarm
  {
    TierOfMarked(StableLabel);
    TierOfMarked(VolatileLabel);
  }

  /** The labels of rule 2 carry the marker of their tier and no other. */
  lemma LiquidityLabelTiers()
    ensures TierOf(NormalLabel) == Clear && TierOf(LiquidityRiskLabel) == Alarm
  {
    TierOfMarked(NormalLabel);
    TierOfMarked(LiquidityRiskLabel);
  }

  /** The labels of rule 3 carry the marker of their tier and no other;
      repayment pressure shares the warning marker with missing data. */
  lemma DebtLabelTiers()
    ensures TierOf(SafeLabel) == Clear && TierOf(PressureLabel) == Warning && TierOf(StrainLabel) == Alarm
  {
    PressureTier();
    TierOfMarked(SafeLabel);
    TierOfMarked(StrainLabel);
  }

  /** Repayment pressure signals a warning: it carries "⚠️" and no "❌". */
  lemma PressureTier()
    ensures TierOf(PressureLabel) == Warning
  {
    TierOfMarked(PressureLabel);
  }
}

=== FILE: statement.dfy ===
/** A financial statement as the data provider delivers it: an ordered list
    of line items. Each line item carries its label (the `报表项目` column)
    and one cell per reporting period, in the provider's column order, which
    is never re-sorted. */
module Statement {
  import opened Wrappers

  /** One data cell: either a number or text that does not parse as one. */
  datatype Cell = Num(value: real) | NotNumeric

  /** One line item. `cells` are the data columns that follow the label
      column, so `cells[0]` is the DataFrame's column 1. */
  datatype Row = Row(item: string, cells: seq<Cell>)

  type Table = seq<Row>

  /** Row `i` is the first row of `t` whose label equals `item`. */
  ghost predicate IsFirst(t: Table, item: string, i: int)
  {
    && 0 <= i < |t|
    && t[i].item == item
    && forall j :: 0 <= j < i ==> t[j].item != item
  }

  /** Position of the first row labelled `item`: the row that
      `.loc[t['报表项目'] == item].iloc[0]` picks, None when the selection
      is empty. */
  function FirstIndex(t: Table, item: string): (r: Option<nat>)
    ensures r.Some? ==> r.value < |t| && t[r.value].item == item
  {
    if |t| == 0 then None
    else if t[0].item == item then Some(0)
    else match FirstIndex(t[1..], item)
      case None => None
      case Some(i) => Some(i + 1)
  }

  /** The scan finds the first row with the label, and finds none exactly
      when no row carries it. */
  lemma {:induction false} FirstIndexSpec(t: Table, item: string)
    ensures FirstIndex(t, item).Some? ==> IsFirst(t, item, FirstIndex(t, item).value)
    ensures FirstIndex(t, item).None? <==> forall j :: 0 <= j < |t| ==> t[j].item != item
  {
    if |t| > 0 && t[0].item != item {
      FirstIndexSpec(t[1..], item);
      assert forall j :: 1 <= j < |t| ==> t[j] == t[1..][j - 1];
    }
  }

  /** `float(t.loc[t['报表项目'] == item].iloc[0, 1])`: the first data cell
      of the first row labelled `item`. None stands for every way that
      expression raises: no such row, a row without data cells, or a cell
      that is not numeric. */
  function FirstValue(t: Table, item: string): (v: Option<real>)
  {
    match FirstIndex(t, item)
    case None => None
    case Some(i) =>
      if |t[i].cells| > 0 && t[i].cells[0].Num? then Some(t[i].cells[0].value) else None
  }

  /** What `FirstValue` reads, in terms of the rows of the table. */
  lemma FirstValueSpec(t: Table, item: string)
    ensures FirstValue(t, item).Some? ==>
      exists i :: IsFirst(t, item, i) && |t[i].cells| > 0 && t[i].cells[0] == Num(FirstValue(t, item).value)
    ensures FirstValue(t, item).None? <==>
      || (forall j :: 0 <= j < |t| ==> t[j].item != item)
      || (exists i :: IsFirst(t, item, i) && (|t[i].cells| == 0 || t[i].cells[0].NotNumeric?))
  {
    FirstIndexSpec(t, item);
    var idx := FirstIndex(t, item);
    if idx.Some? {
      var i := idx.value;
      assert IsFirst(t, item, i);
      if FirstValue(t, item).None? {
        assert |t[i].cells| == 0 || t[i].cells[0].NotNumeric?;
      } else {
        forall i' | IsFirst(t, item, i')
          ensures |t[i'].cells| > 0 && t[i'].cells[0].Num?
        {
          FirstUnique(t, item, i, i');
        }
      }
    }
  }

  /** `t.loc[t['报表项目'] == item]`: every row labelled `item`. */
  function Select(t: Table, item: string): (r: seq<Row>)
    ensures |r| <= |t|
    ensures forall k :: 0 <= k < |r| ==> r[k].item == item
    ensures forall x :: x in r <==> x in t && x.item == item
  {
    if |t| == 0 then []
    else (if t[0].item == item then [t[0]] else []) + Select(t[1..], item)
  }

  /** `.astype(float)` on one row's data cells: all of them as numbers, or
      None when any cell is not numeric. */
  function Numbers(cells: seq<Cell>): (r: Option<seq<real>>)
    ensures r.Some? <==> forall k :: 0 <= k < |cells| ==> cells[k].Num?
    ensures r.Some? ==> |r.value| == |cells| && forall k :: 0 <= k < |cells| ==> cells[k] == Num(r.value[k])
  {
    if |cells| == 0 then Some([])
    else match (cells[0], Numbers(cells[1..]))
      case (Num(x), Some(xs)) => Some([x] + xs)
      case _ => None
  }

  /** `.iloc[:, 1:].astype(float)` on a selection of rows: the numeric
      matrix, or None when any cell of any selected row is not numeric. */
  function NumericRows(rows: seq<Row>): (r: Option<seq<seq<real>>>)
    ensures r.Some? <==>
      forall k, j :: 0 <= k < |rows| && 0 <= j < |rows[k].cells| ==> rows[k].cells[j].Num?
    ensures r.Some? ==>
      |r.value| == |rows| && forall k :: 0 <= k < |rows| ==> Numbers(rows[k].cells) == Some(r.value[k])
  {
    if |rows| == 0 then Some([])
    else match (Numbers(rows[0].cells), NumericRows(rows[1..]))
      case (Some(xs), Some(m)) => Some([xs] + m)
      case _ => None
  }

  /** `x` is the figure a rule reads for `item`: the first data cell of the
      first row labelled `item`, and that cell is numeric. */
  ghost predicate Figure(t: Table, item: string, x: real)
  {
    exists i :: IsFirst(t, item, i) && |t[i].cells| > 0 && t[i].cells[0] == Num(x)
  }

  /** At most one row is the first one with a given label. */
  lemma FirstUnique(t: Table, item: string, i: int, j: int)
    requires IsFirst(t, item, i) && IsFirst(t, item, j)
    ensures i == j
  {
  }

  /** `FirstValue` yields exactly the figure of `item`, and fails exactly
      when the item has none. */
  lemma FirstValueIsFigure(t: Table, item: string)
    ensures forall x :: FirstValue(t, item) == Some(x) <==> Figure(t, item, x)
    ensures FirstValue(t, item).None? <==> forall x :: !Figure(t, item, x)
  {
    forall x | Figure(t, item, x)
      ensures FirstValue(t, item) == Some(x)
    {
      var i :| IsFirst(t, item, i) && |t[i].cells| > 0 && t[i].cells[0] == Num(x);
      var idx := FirstIndex(t, item);
      FirstIndexSpec(t, item);
      assert idx.Some?;
      FirstUnique(t, item, i, idx.value);
    }
    FirstValueSpec(t, item);
  }

  /** A known figure is what `FirstValue` reads. */
  lemma FigureRead(t: Table, item: string, x: real)
    requires Figure(t, item, x)
    ensures FirstValue(t, item) == Some(x)
  {
    FirstValueIsFigure(t, item);
  }

  /** Every row labelled `item` is numeric throughout. */
  ghost predicate AllNumeric(t: Table, item: string)
  {
    forall i, k :: 0 <= i < |t| && t[i].item == item && 0 <= k < |t[i].cells| ==> t[i].cells[k].Num?
  }

  /** Converting the selection of `item` to numbers succeeds exactly when
      every row labelled `item` is numeric throughout. */
  lemma SelectNumeric(t: Table, item: string)
    ensures NumericRows(Select(t, item)).Some? <==> AllNumeric(t, item)
  {
    var rows := Select(t, item);
    if AllNumeric(t, item) {
      forall k, j | 0 <= k < |rows| && 0 <= j < |rows[k].cells|
        ensures rows[k].cells[j].Num?
      {
        assert rows[k] in t;
      }
    } else {
      var i, k :| 0 <= i < |t| && t[i].item == item && 0 <= k < |t[i].cells| && !t[i].cells[k].Num?;
      assert t[i] in rows;
    }
  }
}

=== FILE: wrappers.dfy ===
/** Failure-carrying wrappers used throughout the model. */
module Wrappers {

  /** A value that may be absent, e.g. a line item that the statement does not carry. */
  datatype Option<+T> = None | Some(value: T)

  /** The outcome of a call into a collaborator that may fail with a message. */
  datatype Result<+R, +E> = Success(value: R) | Failure(error: E)
}
